=== FILE: README.md ===
# go-qs query-parameter readers in Dafny

A functional model of the `qs` package: the readers that turn the decoded
query-string multimap of an HTTP request (`url.Values`, here
`map<string, seq<string>>`) into

- a `Pagination` (limit, offset, page) — `ReadPagination` and `initPaginationOptions`;
- a list of `Filter` conditions `<field> <operator> <value>` — `ReadFilters`, the
  `Filters` accessors `Field`/`Fields`/`HasField`, the value accessors
  `StringSlice`/`IntValue`/`IntSlice`/`BoolValue`/`BoolSlice`, and `initFiltersOptions`;
- a list of `Sort` orderings `<field> (asc|desc)` — `ReadSorts`, the `Sorts`
  accessors, and `initSortsOptions`;
- a set of join names — `ReadJoins` and `initJoinsOptions`;
- a `Page` combining all four — `ReadPage` and `initPageOptions`.

Go's `nil` result is `None`, and an error is `Err(...)` of a `Result`. A nil-able options
argument is an `Option` of an options datatype.

Modules:

| file | module | contents |
|---|---|---|
| wrappers.dfy | `Wrappers` | `Option`, `Result` with `:-` support |
| values.dfy | `QueryValues` | the multimap, `url.Values.Get`, the nine error values |
| numbers.dfy | `Numbers` | `strconv.Atoi` over unbounded integers, and `Itoa`, its inverse |
| lexical.dfy | `Lexical` | the `[A-z0-9]+ ` field prefix, plus `strings.Split` and `strings.Join` on "," |
| lists.dfy | `Lists` | selection by field name, shared by `Filters` and `Sorts`; element-wise parsing |
| options.dfy | `Options` | the `{Key, Max}` options shape of filters, sorts and joins, and its initialisation |
| pagination.dfy | `Paging` | `ReadPagination` |
| filter.dfy | `Filters` | `ReadFilters` and the `Filter`/`Filters` methods |
| sort.dfy | `Sorts` | `ReadSorts` and the `Sorts` methods |
| join.dfy | `Joins` | `ReadJoins` |
| page.dfy | `Pages` | `ReadPage`, and the corrected `ReadPageIntended` (see Findings) |
| scenarios.dfy | `Scenarios` | the cases of the repository's `_test.go` files, proved about the model |

`QueryValues.Get` is `url.Values.Get` as pagination.go:47, :60 and :65 call it: the first value of a key, or "" when the key is absent or empty. It has no contract of its own; `Paging.FirstValueWins` states what the readers rely on, that only the first value under a key is ever read.

The three regular expressions are deterministic splitters:

- The field class `[A-z0-9]` never contains a space, so the first space ends the field.
- The filter operator is the next word, or "not", a space and the word after it.
  The ten operator strings, each followed by a space, form a prefix-free set.
  So the split is unique: "gte" is never read as "gt" followed by a value starting with "e".
- The filter value is the rest of the string. It must be non-empty and contain no line feed, since `.` does not match one.

Two consequences of the code:

- Limit, offset and page go through `strconv.Atoi`, which accepts a sign, so a
  negative offset, a negative page and a page of 0 are returned as they are, and
  the offset can be negative. The limit can never be negative, because the clamp
  raises it to a minimum that is at least 0.
- `ReadPageOptions` has a `Join` field (page.go:21), but `initPageOptions` never
  copies it (see Findings).

## Model

| member | source | states |
|---|---|---|
| Numbers.Atoi | pagination.go:47 | `strconv.Atoi` as used for limit, offset, page and `IntSlice`: fails exactly when the text is neither at least one digit nor a sign followed by at least one digit; an unsigned digit string denotes its decimal value; a '-' gives the negated value of the digits after it, a '+' the value of the digits after it |
| Numbers.NatText | pagination.go:47 | the canonical decimal text of a natural: non-empty, all digits, its digit value is the number, and it starts with '0' only for zero, so it has no leading zeros |
| Numbers.AtoiItoa | pagination.go:47 | every integer is read back from its decimal text, so every integer is a possible limit, offset or page |
| Options.Init | filter.go:206-222 | the shared shape of `initFiltersOptions`/`initSortsOptions`/`initJoinsOptions`: no options gives the default key and no maximum; an empty key takes the default key; a maximum that is not positive becomes 0; options already in that form are kept |
| Options.InitIdempotent | join.go:71-87 | initialising the filter, sort or join options twice is initialising them once |
| Options.TooMany | filter.go:168-170 | the count check shared by filters (also sort.go:84, join.go:37): a maximum that is not positive imposes none, and one value is never too many |
| Options.TooManyMonotone | sort.go:84-86 | if some number of values is too many, so is any larger number |
| Lexical.SpaceIndex | filter.go:19 | the position of the first space, the point where a `[A-z0-9]+` field must end |
| Lexical.SplitWord | filter.go:19 | cutting at the first space gives a space-free word, the space, and the rest; fails exactly when there is no space |
| Lexical.SplitField | sort.go:16 | the `^([A-z0-9]+) ` prefix common to both patterns: a non-empty run of field characters, then a space; input = field + " " + rest |
| Lexical.SplitFieldOf | sort.go:16 | completeness of the field split: any field followed by a space and any text splits back into that field and that text |
| Lexical.Split | filter.go:110 | `strings.Split(value, ",")`: at least one piece, and no piece contains the separator |
| Lexical.SplitCount | filter.go:110 | there is exactly one more piece than there are commas |
| Lexical.JoinSplit | filter.go:108-112 | joining the pieces with "," gives the value back |
| Lexical.SplitSinglePiece | filter.go:108-112 | a value without commas is a single piece |
| Lexical.SplitJoinPieces | filter.go:108-112 | splitting the ","-join of comma-free pieces gives those pieces back, the other half of the round trip |
| Lists.Matching | filter.go:119-127 | the loop of `Field`: every kept element has the key, and the result is an order-preserving subsequence of the input |
| Lists.MatchingCount | sort.go:35-43 | `Field` keeps each element with the key exactly as often as it occurs, and no element without it |
| Lists.MatchingAppend | sort.go:35-43 | selection by one name distributes over concatenation, so the original order is kept |
| Lists.MatchingAny | filter.go:131-141 | the nested loop of `Fields`: only input elements whose key is named are emitted; no names, no elements |
| Lists.Copies | filter.go:134-138 | the inner loop of `Fields`: one copy of the element per occurrence of its key among the names |
| Lists.CopiesCount | filter.go:134-138 | the inner loop emits the element once for each time its key is named, and nothing else |
| Lists.MatchingAnyCount | filter.go:131-141 | `Fields` emits each element (multiplicity in input) × (occurrences of its key among the names) times, so duplicate names duplicate output |
| Lists.MatchingAnyKeeps | sort.go:47-57 | every element whose key is among the names is emitted |
| Lists.MatchingAnyAppend | sort.go:47-57 | selection by several names distributes over concatenation, so the original order is kept |
| Lists.MatchingAnySingle | sort.go:47-57 | `Fields` with one name is `Field` with that name |
| Lists.Exists | filter.go:144-151 | the loop of `HasField` is true exactly when some element has the key |
| Lists.ExistsIffMatching | sort.go:59-67 | `HasField` is true exactly when `Field` is non-empty |
| Lists.ParseEach | filter.go:172-185 | the loops of `ReadFilters`/`ReadSorts`/`IntSlice`: succeeds iff every piece parses; then the length is kept and the i-th result is the parse of the i-th piece |
| Lists.ParseEachOf | filter.go:172-185 | when every piece parses to the given element, the loop's result is exactly that list |
| Paging.InitOptions | pagination.go:96-123 | no options give "limit"/"offset"/"page", no maximum and no minimum; each empty key takes its default; maximum and minimum that are not positive become 0; options already in that form are kept |
| Paging.InitOptionsIdempotent | pagination.go:96-123 | initialising pagination options twice is initialising them once |
| Paging.Clamp | pagination.go:53-57 | the result is one of limit, maximum or minimum; non-negative bounds give a non-negative limit; a positive maximum that is exceeded wins; otherwise the result is the larger of limit and minimum; with ordered bounds the result lies between them; a limit already within bounds is kept |
| Paging.ClampIdempotent | pagination.go:53-57 | clamping twice is clamping once, when there is no maximum or the minimum does not exceed it |
| Paging.ClampCrossedBounds | pagination.go:53-57 | with minimum 10 above maximum 5, a limit of 20 ends at 5, below the minimum; and clamping 3 twice (10, then 5) differs from clamping it once |
| Paging.ReadPagination | pagination.go:38-78 | InvalidLimit iff the limit key is present and its first value is not an integer; InvalidOffset iff the limit is fine and the offset's is not; InvalidPage iff neither and there is no offset key and the page's is not; the limit is the clamped value (0 when absent) and never negative; an offset key wins and gives page 0; a page key alone gives offset (page − 1) × limit; no key gives offset and page 0 |
| Paging.ReadPaginationSameOptions | pagination.go:39 | the result depends on the options only through `initPaginationOptions` |
| Paging.ReadEncode | pagination.go:38-78 | with distinct keys, a readable pagination (clamped limit, offset derived from a non-zero page) is read back from the query that states its limit and its offset (or its page) |
| Paging.ReadIsReadable | pagination.go:53-70 | with ordered bounds (no maximum, or minimum not above it) every pagination the reader returns is readable, so `ReadEncode` reads it back from its encoding |
| Paging.OffsetIgnoresPage | pagination.go:59-70 | with an offset key present and a page key that differs from the offset and limit keys, any page values, malformed ones included, leave the result unchanged |
| Paging.FirstValueWins | pagination.go:47 | only the first value of a repeated key is read |
| Filters.SplitOperator | filter.go:19 | the operator group: the result is one of the ten operators, and input = operator + " " + rest |
| Filters.SplitNegated | filter.go:19 | "not" followed by a space and a word forms "not in" or "not like", and nothing else |
| Filters.SplitOperatorOf | filter.go:19 | any of the ten operators followed by a space and any text splits back into that operator and that text; "gte" is not cut as "gt" |
| Filters.Parse | filter.go:174-183 | an accepted string is well formed and equals field + " " + operator + " " + value |
| Filters.ParseFormat | filter.go:19 | every well-formed condition parses back from its text |
| Filters.ParseIff | filter.go:174-183 | a string parses to a condition exactly when it is that well-formed condition's text |
| Filters.StringSlice | filter.go:108-112 | never fails; at least one piece, none containing ","; joining them with "," gives the value back |
| Filters.IntSlice | filter.go:89-101 | fails iff some ","-piece is not an integer; otherwise one integer per piece, in order, each the parse of its piece |
| Filters.IntValue | filter.go:103-106 | a value containing a comma is never an integer; for a value without commas, `IntSlice` fails exactly when `IntValue` does and otherwise is the one-element list of its integer |
| Filters.BoolSlice | filter.go:31-43 | fails iff some ","-piece is not a boolean under the supplied parser; otherwise one boolean per piece, in order |
| Filters.BoolValue | filter.go:45-48 | for a value without commas, `BoolSlice` fails exactly when `BoolValue` does and otherwise is the one-element list of its boolean |
| Filters.Field | filter.go:117-127 | the result is an order-preserving subsequence holding each condition on the field as often as it occurs, and no other condition |
| Filters.Fields | filter.go:129-141 | only conditions whose field is named, and all of them; no names give no conditions |
| Filters.FieldsCount | filter.go:129-141 | each condition is emitted as often as it occurs times the occurrences of its field among the names |
| Filters.FieldsAppend | filter.go:129-141 | `Fields` keeps the original order: it distributes over concatenation |
| Filters.HasField | filter.go:143-151 | true exactly when some condition is on the field, exactly when `Field` is non-empty |
| Filters.InitOptions | filter.go:206-222 | default key "filter" and no maximum; options already in that form are kept |
| Filters.ReadFilters | filter.go:161-188 | an absent key is `None`; TooManyFilters iff the key is present and a positive maximum is exceeded, whatever the values; InvalidFilter iff not too many and some value does not parse; no other error; otherwise one condition per value, in order, each well formed and with the value as its text |
| Filters.PresentButEmpty | filter.go:164-172 | a present key with no values gives an empty list, distinct from an absent key |
| Filters.ReadFiltersSameOptions | filter.go:162 | the result depends on the options only through `initFiltersOptions` |
| Sorts.Parse | sort.go:89-99 | an accepted string is a well-formed ordering and equals field + " " + direction |
| Sorts.ParseFormat | sort.go:16 | every well-formed ordering parses back from its text |
| Sorts.ParseIff | sort.go:89-99 | a string parses to an ordering exactly when it is that well-formed ordering's text |
| Sorts.Field | sort.go:33-43 | the result is an order-preserving subsequence holding each ordering on the field as often as it occurs, and no other ordering |
| Sorts.Fields | sort.go:45-57 | only orderings whose field is named, and all of them; no names give no orderings |
| Sorts.FieldsCount | sort.go:45-57 | each ordering is emitted as often as it occurs times the occurrences of its field among the names |
| Sorts.FieldsAppend | sort.go:45-57 | `Fields` keeps the original order of the orderings: it distributes over concatenation |
| Sorts.HasField | sort.go:59-67 | true exactly when some ordering is on the field, exactly when `Field` is non-empty |
| Sorts.InitOptions | sort.go:115-131 | default key "sort" and no maximum; options already in that form are kept |
| Sorts.ReadSorts | sort.go:77-103 | an absent key is `None`; TooManySorts iff present and a positive maximum is exceeded; InvalidSort iff not too many and some value does not parse; no other error; otherwise one ordering per value, in order, with the value as its text |
| Sorts.PresentButEmpty | sort.go:80-88 | a present key with no values gives an empty list, distinct from an absent key |
| Sorts.ReadSortsSameOptions | sort.go:78 | the result depends on the options only through `initSortsOptions` |
| Joins.Collect | join.go:41-47 | succeeds iff every value matches `^[a-z0-9]+$`; the set holds exactly the values, duplicates collapsed |
| Joins.InitOptions | join.go:71-87 | default key "join" and no maximum; options already in that form are kept |
| Joins.ReadJoins | join.go:30-53 | `None` iff the key is absent or has no values; TooManyJoins iff a positive maximum is exceeded by the raw count, duplicates included; InvalidJoin iff not too many and some value is not a join name; no other error; a returned set is non-empty, equals the set of values, and holds only join names |
| Joins.ReadJoinsSameOptions | join.go:31 | the result depends on the options only through `initJoinsOptions` |
| Pages.InitPageOptions | page.go:73-81 | the join options are always dropped; no options stay no options; each of the other three sub-parsers initialises the result to what it would have initialised from the caller's options |
| Pages.ReadPage | page.go:25-55 | a pagination error is returned first, then a filter error, then a sort error, then a join error; each parser sees the caller's options except joins, which get the defaults; success iff all four succeed, and the page holds their four results |
| Pages.JoinOptionsIgnored | page.go:43 | the join options passed to `ReadPage` make no difference to its result |
| Pages.JoinKeyDropped | page.go:73-81 | with join key "relation", `ReadJoins` finds the join "author" but `ReadPage` reports no joins |
| Pages.InitPageOptionsIntended | page.go:73-81 | the corrected initialisation: all four sub-parsers, joins included, end up with the options they would build from the caller's |
| Pages.ReadPageIntended | page.go:25-55 | the corrected reader: success iff all four parsers succeed with the caller's options, joins included; the page holds their results; the error is the first by pagination, filter, sort, join |
| Pages.IntendedAgreesWithoutOptions | page.go:73-81 | without options the reader as written and the corrected one agree |
| Scenarios.PaginationCases | pagination_test.go:17-21 | "", limit=10, offset=5, limit=10&page=3 and limit=10&offset=5&page=3 give {0,0,0}, {10,0,0}, {0,5,0}, {10,20,3}, {10,5,0} |
| Scenarios.PaginationBoundsCases | pagination_test.go:23-25 | with minimum 5 and maximum 10: no limit gives 5, limit 3 gives 5, limit 20 gives 10 |
| Scenarios.PaginationErrorCases | pagination_test.go:27-32 | the six malformed inputs give InvalidLimit, InvalidOffset or InvalidPage as the tests expect |
| Scenarios.NoFilters | filter_test.go:17 | an empty query gives no filters |
| Scenarios.OneFilter | filter_test.go:18-23 | "title eq Spaghetti" is one condition |
| Scenarios.TwoFilters | filter_test.go:24-30 | two values give two conditions in their order |
| Scenarios.TooManyFiltersFirst | filter.go:168-170 | the count check comes before validation: one value too many fails with TooManyFilters although a value is malformed |
| Scenarios.NoOperator | filter.go:19 | a field followed by a non-empty, space-free word that is neither a one-word operator nor "not" never parses |
| Scenarios.MalformedFilter | filter.go:174-177 | "not a valid filter" fails the whole read with InvalidFilter |
| Scenarios.NoSorts | sort_test.go:17 | an empty query gives no sorts |
| Scenarios.OneSort | sort_test.go:18-23 | "title asc" is one ordering |
| Scenarios.TwoSorts | sort_test.go:24-30 | two values give two orderings in their order |
| Scenarios.JoinCases | join_test.go:17-25 | no joins; {"ingredient"}; {"author", "ingredient"} |
| Scenarios.DuplicateJoinsCount | join.go:37-47 | "a","a" with at most 1 join is TooManyJoins; without a maximum it is {"a"} |
| Scenarios.EmptyPage | page_test.go:14-19 | an empty query gives pagination {0,0,0} and nothing else |
| Scenarios.PageWithPagination | page_test.go:20-25 | limit=10&page=2 gives {10,10,2} |
| Scenarios.PageWithFilter | page_test.go:26-34 | adding "title eq Spaghetti" adds exactly that condition |
| Scenarios.PageWithFilterAndSort | page_test.go:35-46 | adding also "serves desc" adds exactly that ordering |

## Left out

- `ReadRequestPagination`, `ReadRequestFilters`, `ReadRequestSorts`, `ReadRequestJoins`, `ReadRequestPage`: they only take `req.URL.Query()` from a `net/http` request. The decoded multimap is the model's input.
- `ReadStringPagination`, `ReadStringFilters`, `ReadStringSorts`, `ReadStringJoins`, `ReadStringPage`: they only add `url.ParseQuery` (percent-decoding) in front. This is library code outside the package.
- `Float32Value`, `Float32Slice`, `Float64Value`, `Float64Slice`: floating-point parsing is not modelled.
- Filters.BoolSlice: `strconv.ParseBool` is a parameter of the model, so the accepted spellings ("1", "t", "TRUE", ...) are not fixed; the same holds for `BoolValue`.
- Numbers.Atoi: integers are unbounded. Go's out-of-range error for values beyond 64 bits is not modelled.
- Paging.ReadPagination: `(page - 1) * limit` is computed without Go's 64-bit wrap-around.
- The error values are an enumeration. Their message texts and `errors.Is` identity are not modelled.
- `Joins`: Go's `map[string]bool` with every value `true` is a `set<string>`.
- JSON struct tags and serialisation are not modelled.
- Strings are sequences of Unicode characters, not Go's byte strings, so a value holding invalid UTF-8 (as `url.ParseQuery` yields for `%FF`) cannot be written. No behaviour depends on it: the field, operator and direction patterns only accept ASCII, and RE2's `.` reads a bad byte as U+FFFD.

## Findings

| source | as written | input that shows it | evidently intended | confidence | as-written member | corrected member |
|---|---|---|---|---|---|---|
| page.go:73-81 | `initPageOptions` copies the pagination, filter and sort options but never `opt.Join`, so `ReadPage` always reads joins with key "join" and no maximum | values `relation=author`, options with join key "relation": `ReadJoins` returns {"author"}, but `ReadPage` returns a page without joins | the join options are initialised and used like the other three: `ReadPageOptions` has a `Join` field for exactly that | not executed | `Pages.ReadPage`, counterexample `Pages.JoinKeyDropped` | `Pages.ReadPageIntended` (with `Pages.InitPageOptionsIntended`) |

=== FILE: filter.dfy ===
/** `ReadFilters`: conditions of the form `<field> <operator> <value>`. */
module Filters {
  import opened Wrappers
  import opened QueryValues
  import opened Numbers
  import opened Lexical
  import Lists
  import Options

  /** One condition: the value is kept as raw text, converted on demand. */
  datatype Filter = Filter(field: string, operator: string, value: string)

  /** The operators that are a single word. */
  const WordOperators: set<string> := {"eq", "neq", "gt", "gte", "lt", "lte", "in", "like"}

  /** The operators made of "not", a space and a second word. */
  const NegatedOperators: set<string> := {"not in", "not like"}

  /** The ten operator literals of the filter pattern. */
  const Operators: set<string> := WordOperators + NegatedOperators

  /** `(.+)$`: at least one character, and `.` does not match a line feed. */
  predicate IsValue(v: string) {
    |v| > 0 && '\n' !in v
  }

  predicate IsWellFormed(f: Filter) {
    IsField(f.field) && f.operator in Operators && IsValue(f.value)
  }

  /** The query-string text of a condition. */
  function Format(f: Filter): string {
    f.field + " " + (f.operator + " " + f.value)
  }

  function FieldOf(f: Filter): string {
    f.field
  }

  /** `(eq|neq|gt|gte|lt|lte|in|not in|like|not like) `: the next word is the operator,
      unless it is "not", in which case "not", the space and the following word are.
      Returns the operator and the text after the space that ends it. */
  function SplitOperator(s: string): (r: Option<(string, string)>)
    ensures r.Some? ==> r.value.0 in Operators && s == r.value.0 + " " + r.value.1
  {
    match SplitWord(s)
    case None => None
    case Some((word, after)) =>
      if word == "not" then SplitNegated(word, after)
      else if word in WordOperators then Some((word, after))
      else None
  }

  /** After "not" and its space: the next word completes a negated operator. */
  function SplitNegated(word: string, after: string): (r: Option<(string, string)>)
    ensures r.Some? ==> r.value.0 in NegatedOperators && word + " " + after == r.value.0 + " " + r.value.1
  {
    match SplitWord(after)
    case None => None
    case Some((second, rest)) =>
      var op := word + " " + second;
      assert word + " " + after == op + " " + rest;
      if op in NegatedOperators then Some((op, rest)) else None
  }

  /** The filter pattern as a deterministic splitter: field, operator, then the value,
      which is all the remaining text. */
  function Parse(s: string): (r: Option<Filter>)
    ensures r.Some? ==> IsWellFormed(r.value) && Format(r.value) == s
  {
    match SplitField(s)
    case None => None
    case Some((field, rest)) =>
      match SplitOperator(rest)
      case None => None
      case Some((op, value)) =>
        if IsValue(value) then Some(Filter(field, op, value)) else None
  }

  lemma SplitOperatorOf(op: string, value: string)
    requires op in Operators
    ensures SplitOperator(op + " " + value) == Some((op, value))
  {
    if op in NegatedOperators {
      var second := if op == "not in" then "in" else "like";
      assert op == "not" + " " + second;
      assert op + " " + value == "not" + " " + (second + " " + value);
      SplitWordOf("not", second + " " + value);
      SplitWordOf(second, value);
    } else {
      assert ' ' !in op;
      SplitWordOf(op, value);
    }
  }

  /** Every well-formed condition parses back from its text: the split is unique,
      so "gte" is never read as "gt" followed by a value starting with "e". */
  lemma ParseFormat(f: Filter)
    requires IsWellFormed(f)
    ensures Parse(Format(f)) == Some(f)
  {
    SplitFieldOf(f.field, f.operator + " " + f.value);
    SplitOperatorOf(f.operator, f.value);
  }

  /** A string parses to `f` exactly when it is the text of the well-formed `f`. */
  lemma ParseIff(s: string, f: Filter)
    ensures Parse(s) == Some(f) <==> IsWellFormed(f) && Format(f) == s
  {
    if IsWellFormed(f) && Format(f) == s {
      ParseFormat(f);
    }
  }

  // Typed views of the value. Go's `strings.Split` yields at least one piece, so
  // a list accessor never sees an empty list.

  /** `StringSlice`: the comma-separated pieces of the value; never fails. */
  function StringSlice(f: Filter): (r: seq<string>)
    ensures |r| >= 1 && forall p :: p in r ==> Separator !in p
    ensures JoinPieces(r) == f.value
  {
    JoinSplit(f.value);
    Split(f.value)
  }

  /** `IntValue`: a value with a comma is never an integer; for a value without one,
      `IntSlice` agrees with it, as a list of one. */
  function IntValue(f: Filter): (r: Option<int>)
    ensures Separator in f.value ==> r.None?
    ensures Separator !in f.value ==> IntSlice(f) == (if r.Some? then Some([r.value]) else None)
  {
    PlainValueIsOnePiece(f.value, Atoi);
    assert Separator in f.value ==> exists i :: 0 <= i < |f.value| && f.value[i] == Separator && !IsDigit(f.value[i]);
    Atoi(f.value)
  }

  /** `IntSlice`: fails iff some piece is not an integer; otherwise one integer per piece. */
  function IntSlice(f: Filter): (r: Option<seq<int>>)
    ensures r.Some? <==> forall p :: p in Split(f.value) ==> Atoi(p).Some?
    ensures r.Some? ==> |r.value| == |Split(f.value)|
    ensures r.Some? ==> forall i :: 0 <= i < |r.value| ==> Atoi(Split(f.value)[i]) == Some(r.value[i])
  {
    Lists.ParseEach(Split(f.value), Atoi)
  }

  /** `BoolValue`, with the boolean parser supplied by the caller; for a value without
      commas, `BoolSlice` agrees with it, as a list of one. */
  function BoolValue(f: Filter, parseBool: string -> Option<bool>): (r: Option<bool>)
    ensures Separator !in f.value ==> BoolSlice(f, parseBool) == (if r.Some? then Some([r.value]) else None)
  {
    PlainValueIsOnePiece(f.value, parseBool);
    parseBool(f.value)
  }

  /** `BoolSlice`: fails iff some piece is not a boolean; otherwise one boolean per piece. */
  function BoolSlice(f: Filter, parseBool: string -> Option<bool>): (r: Option<seq<bool>>)
    ensures r.Some? <==> forall p :: p in Split(f.value) ==> parseBool(p).Some?
    ensures r.Some? ==> |r.value| == |Split(f.value)|
    ensures r.Some? ==> forall i :: 0 <= i < |r.value| ==> parseBool(Split(f.value)[i]) == Some(r.value[i])
  {
    Lists.ParseEach(Split(f.value), parseBool)
  }

  /** A value without commas is parsed as a list of one piece. */
  lemma PlainValueIsOnePiece<T>(v: string, parse: string -> Option<T>)
    ensures Separator !in v ==>
      Lists.ParseEach(Split(v), parse) == (if parse(v).Some? then Some([parse(v).value]) else None)
  {
    if Separator !in v {
      SplitSinglePiece(v);
      var r := Lists.ParseEach(Split(v), parse);
      if r.Some? {
        assert parse(Split(v)[0]) == Some(r.value[0]);
        assert r.value == [r.value[0]];
      }
    }
  }

  /** `Filters.Field`: the conditions on `name`, in their original order. */
  function Field(filters: seq<Filter>, name: string): (r: seq<Filter>)
    ensures forall f :: f in r ==> f.field == name
    ensures Lists.IsSubsequence(r, filters)
    ensures forall f :: f in filters && f.field == name ==> f in r
    ensures forall f :: multiset(r)[f] == if f.field == name then multiset(filters)[f] else 0
  {
    var r := Lists.Matching(filters, FieldOf, name);
    forall f
      ensures multiset(r)[f] == if f.field == name then multiset(filters)[f] else 0
    {
      Lists.MatchingCount(filters, FieldOf, name, f);
    }
    r
  }

  /** `Filters.Fields`: each condition once per occurrence of its field among `names`. */
  function Fields(filters: seq<Filter>, names: seq<string>): (r: seq<Filter>)
    ensures forall f :: f in r ==> f in filters && f.field in names
    ensures forall f :: f in filters && f.field in names ==> f in r
    ensures |names| == 0 ==> r == []
  {
    var r := Lists.MatchingAny(filters, FieldOf, names);
    forall f | f in filters && f.field in names
      ensures f in r
    {
      Lists.MatchingAnyKeeps(filters, FieldOf, names, f);
    }
    r
  }

  /** The multiplicity `Fields` promises: once per occurrence of the field among `names`,
      for each time the element occurs. */
  lemma FieldsCount(filters: seq<Filter>, names: seq<string>, f: Filter)
    ensures multiset(Fields(filters, names))[f] == multiset(filters)[f] * multiset(names)[f.field]
  {
    Lists.MatchingAnyCount(filters, FieldOf, names, f);
  }

  /** Selecting by several names keeps the original order: it distributes over concatenation. */
  lemma FieldsAppend(a: seq<Filter>, b: seq<Filter>, names: seq<string>)
    ensures Fields(a + b, names) == Fields(a, names) + Fields(b, names)
  {
    Lists.MatchingAnyAppend(a, b, FieldOf, names);
  }

  /** `Filters.HasField`. */
  function HasField(filters: seq<Filter>, name: string): (b: bool)
    ensures b <==> exists i :: 0 <= i < |filters| && filters[i].field == name
    ensures b <==> |Field(filters, name)| > 0
  {
    Lists.ExistsIffMatching(filters, FieldOf, name);
    Lists.Exists(filters, FieldOf, name)
  }

  /** `initFiltersOptions`. */
  function InitOptions(opt: Option<Options.ListOptions>): (r: Options.ListOptions)
    ensures Options.IsNormalized(r)
    ensures opt.None? ==> r == Options.ListOptions("filter", 0)
    ensures opt.Some? && Options.IsNormalized(opt.value) ==> r == opt.value
  {
    Options.Init(opt, "filter")
  }

  /** `ReadFilters`. An absent key is `None`, which is not the same as `Some([])`. */
  function ReadFilters(values: Values, opt: Option<Options.ListOptions>): (r: Result<Option<seq<Filter>>, Error>)
    ensures var o := InitOptions(opt);
      o.key !in values <==> r == Ok(None)
    ensures var o := InitOptions(opt);
      r == Err(TooManyFilters) <==> o.key in values && Options.TooMany(o, |values[o.key]|)
    ensures var o := InitOptions(opt);
      r == Err(InvalidFilter) <==>
        o.key in values && !Options.TooMany(o, |values[o.key]|)
        && exists i :: 0 <= i < |values[o.key]| && Parse(values[o.key][i]).None?
    ensures r.Err? ==> r.error in {TooManyFilters, InvalidFilter}
    ensures var o := InitOptions(opt);
      r.Ok? && r.value.Some? ==>
        o.key in values && |r.value.value| == |values[o.key]|
        && forall i :: 0 <= i < |values[o.key]| ==>
             IsWellFormed(r.value.value[i]) && Format(r.value.value[i]) == values[o.key][i]
  {
    var o := InitOptions(opt);
    if o.key !in values then Ok(None)
    else if Options.TooMany(o, |values[o.key]|) then Err(TooManyFilters)
    else
      match Lists.ParseEach(values[o.key], Parse)
      case None => Err(InvalidFilter)
      case Some(filters) => Ok(Some(filters))
  }

  /** A present key with no values is an empty list, not an absent one. */
  lemma PresentButEmpty(values: Values, opt: Option<Options.ListOptions>)
    requires InitOptions(opt).key in values && values[InitOptions(opt).key] == []
    ensures ReadFilters(values, opt) == Ok(Some([]))
  {
  }

  /** The result depends on the options only through their initialised form. */
  lemma ReadFiltersSameOptions(values: Values, a: Option<Options.ListOptions>, b: Option<Options.ListOptions>)
    requires InitOptions(a) == InitOptions(b)
    ensures ReadFilters(values, a) == ReadFilters(values, b)
  {
  }
}

=== FILE: join.dfy ===
/** `ReadJoins`: a set of relation names to include. */
module Joins {
  import opened Wrappers
  import opened QueryValues
  import Options

  /** `^[a-z0-9]+$`: lower-case ASCII letters and digits, at least one. */
  predicate IsJoinName(s: string) {
    |s| > 0 && forall i :: 0 <= i < |s| ==> 'a' <= s[i] <= 'z' || '0' <= s[i] <= '9'
  }

  /** Validates the values in order and gathers them into a set; fails on the
      first value that is not a join name. */
  function Collect(names: seq<string>): (r: Option<set<string>>)
    ensures r.Some? <==> forall i :: 0 <= i < |names| ==> IsJoinName(names[i])
    ensures r.Some? ==> forall n :: n in r.value <==> n in names
  {
    if |names| == 0 then Some({})
    else if !IsJoinName(names[0]) then None
    else
      match Collect(names[1..])
      case None => None
      case Some(rest) =>
        assert forall n :: n in names <==> n == names[0] || n in names[1..];
        Some({names[0]} + rest)
  }

  /** `initJoinsOptions`. */
  function InitOptions(opt: Option<Options.ListOptions>): (r: Options.ListOptions)
    ensures Options.IsNormalized(r)
    ensures opt.None? ==> r == Options.ListOptions("join", 0)
    ensures opt.Some? && Options.IsNormalized(opt.value) ==> r == opt.value
  {
    Options.Init(opt, "join")
  }

  /** `ReadJoins`. The maximum counts raw values, duplicates included; an empty
      result set is reported as `None` although the key was present. */
  function ReadJoins(values: Values, opt: Option<Options.ListOptions>): (r: Result<Option<set<string>>, Error>)
    ensures var o := InitOptions(opt);
      r == Ok(None) <==> o.key !in values || values[o.key] == []
    ensures var o := InitOptions(opt);
      r == Err(TooManyJoins) <==> o.key in values && Options.TooMany(o, |values[o.key]|)
    ensures var o := InitOptions(opt);
      r == Err(InvalidJoin) <==>
        o.key in values && !Options.TooMany(o, |values[o.key]|)
        && exists i :: 0 <= i < |values[o.key]| && !IsJoinName(values[o.key][i])
    ensures r.Err? ==> r.error in {TooManyJoins, InvalidJoin}
    ensures var o := InitOptions(opt);
      r.Ok? && r.value.Some? ==>
        o.key in values && r.value.value != {}
        && (forall n :: n in r.value.value <==> n in values[o.key])
        && forall n :: n in r.value.value ==> IsJoinName(n)
  {
    var o := InitOptions(opt);
    if o.key !in values then Ok(None)
    else if Options.TooMany(o, |values[o.key]|) then Err(TooManyJoins)
    else
      match Collect(values[o.key])
      case None => Err(InvalidJoin)
      case Some(joins) =>
        if |joins| > 0 then Ok(Some(joins)) else Ok(None)
  }

  /** The result depends on the options only through their initialised form. */
  lemma ReadJoinsSameOptions(values: Values, a: Option<Options.ListOptions>, b: Option<Options.ListOptions>)
    requires InitOptions(a) == InitOptions(b)
    ensures ReadJoins(values, a) == ReadJoins(values, b)
  {
  }
}

=== FILE: lexical.dfy ===
/** Character classes and splitters that stand in for the source's regular expressions
    and for `strings.Split` / `strings.Join` on the "," separator. */
module Lexical {
  import opened Wrappers

  /** The separator of list-valued filter values. */
  const Separator: char := ','

  /** The character class `[A-z0-9]` of field names. The range 'A'..'z' also
      contains the six characters between 'Z' and 'a': `[ \ ] ^ _` and the backtick. */
  predicate IsFieldChar(c: char) {
    'A' <= c <= 'z' || '0' <= c <= '9'
  }

  /** `[A-z0-9]+`: a non-empty run of field characters. */
  predicate IsField(s: string) {
    |s| > 0 && forall i :: 0 <= i < |s| ==> IsFieldChar(s[i])
  }

  /** Position of the first space in `s`, or `|s|` when there is none. */
  function SpaceIndex(s: string): (i: nat)
    ensures i <= |s|
    ensures i < |s| ==> s[i] == ' '
    ensures forall j :: 0 <= j < i ==> s[j] != ' '
  {
    if |s| == 0 || s[0] == ' ' then 0 else 1 + SpaceIndex(s[1..])
  }

  /** The first space of `a + " " + b` is the one after `a` when `a` has none. */
  lemma SpaceIndexAfter(a: string, b: string)
    requires ' ' !in a
    ensures SpaceIndex(a + " " + b) == |a|
    ensures (a + " " + b)[..|a|] == a && (a + " " + b)[|a| + 1..] == b
  {
    var s := a + " " + b;
    assert s[|a|] == ' ';
    assert forall j :: 0 <= j < |a| ==> s[j] == a[j] && a[j] in a;
  }

  /** A field name never contains a space, so the first space ends it. */
  lemma FieldHasNoSpace(s: string)
    requires IsField(s)
    ensures ' ' !in s
  {
  }

  /** The text before the first space and the text after it; `None` without a space. */
  function SplitWord(s: string): (r: Option<(string, string)>)
    ensures r.Some? ==> ' ' !in r.value.0 && s == r.value.0 + " " + r.value.1
    ensures r.None? <==> ' ' !in s
  {
    var i := SpaceIndex(s);
    if i == |s| then
      assert forall c :: c in s ==> c != ' ';
      None
    else
      assert s == s[..i] + " " + s[i + 1..];
      Some((s[..i], s[i + 1..]))
  }

  lemma SplitWordOf(a: string, b: string)
    requires ' ' !in a
    ensures SplitWord(a + " " + b) == Some((a, b))
  {
    SpaceIndexAfter(a, b);
  }

  /** `^([A-z0-9]+) `, the head of the filter and sort patterns: the first space ends the field, and the field must be non-empty
      and made of field characters. Returns the field and the text after the space. */
  function SplitField(s: string): (r: Option<(string, string)>)
    ensures r.Some? ==> IsField(r.value.0) && s == r.value.0 + " " + r.value.1
  {
    match SplitWord(s)
    case Some((field, rest)) => if IsField(field) then Some((field, rest)) else None
    case None => None
  }

  lemma SplitFieldOf(field: string, rest: string)
    requires IsField(field)
    ensures SplitField(field + " " + rest) == Some((field, rest))
  {
    FieldHasNoSpace(field);
    SplitWordOf(field, rest);
  }

  /** `strings.Join(parts, ",")`. */
  function JoinPieces(parts: seq<string>): string {
    if |parts| == 0 then ""
    else if |parts| == 1 then parts[0]
    else parts[0] + [Separator] + JoinPieces(parts[1..])
  }

  /** `strings.Split(s, ",")`: the pieces between separators, never none. */
  function Split(s: string): (r: seq<string>)
    ensures |r| >= 1
    ensures forall p :: p in r ==> Separator !in p
  {
    if |s| == 0 then [""]
    else
      var t := Split(s[1..]);
      if s[0] == Separator then [""] + t
      else
        assert forall p :: p in t[1..] ==> p in t;
        [[s[0]] + t[0]] + t[1..]
  }

  /** There is one more piece than there are separators. */
  lemma {:induction false} SplitCount(s: string)
    ensures |Split(s)| == multiset(s)[Separator] + 1
    decreases |s|
  {
    if |s| > 0 {
      SplitCount(s[1..]);
      assert s == [s[0]] + s[1..];
    }
  }

  /** Joining the pieces with "," restores the split string. */
  lemma {:induction false} JoinSplit(s: string)
    ensures JoinPieces(Split(s)) == s
    decreases |s|
  {
    if |s| > 0 {
      JoinSplit(s[1..]);
      assert s == [s[0]] + s[1..];
      if s[0] != Separator {
        JoinExtendFirst(s[0], Split(s[1..]));
      }
    }
  }

  /** Extending the first piece extends the joined text at its front. */
  lemma JoinExtendFirst(c: char, t: seq<string>)
    requires |t| >= 1
    ensures JoinPieces([[c] + t[0]] + t[1..]) == [c] + JoinPieces(t)
  {
    var r := [[c] + t[0]] + t[1..];
    assert r[0] == [c] + t[0] && r[1..] == t[1..] && |r| == |t|;
    if |t| > 1 {
      var j := JoinPieces(t[1..]);
      assert JoinPieces(t) == t[0] + [Separator] + j;
      assert JoinPieces(r) == r[0] + [Separator] + j;
      var head, sep := t[0], [Separator];
      assert ([c] + head) + sep + j == [c] + (head + sep + j) by {
        ConcatAssoc([c] + head, sep, j);
        ConcatAssoc([c], head, sep + j);
        ConcatAssoc(head, sep, j);
      }
    }
  }

  lemma ConcatAssoc<T>(a: seq<T>, b: seq<T>, d: seq<T>)
    ensures a + b + d == a + (b + d)
  {
  }

  /** A piece without separators followed by "," and more text splits off as one piece. */
  lemma {:induction false} SplitLeadingPiece(p: string, rest: string)
    requires Separator !in p
    ensures Split(p + [Separator] + rest) == [p] + Split(rest)
    decreases |p|
  {
    if |p| == 0 {
      assert p + [Separator] + rest == [Separator] + rest;
      assert ([Separator] + rest)[1..] == rest;
    } else {
      var s := p + [Separator] + rest;
      assert s[1..] == p[1..] + [Separator] + rest;
      SplitLeadingPiece(p[1..], rest);
      assert [p[0]] + p[1..] == p;
    }
  }

  /** A string without separators is a single piece. */
  lemma {:induction false} SplitSinglePiece(p: string)
    requires Separator !in p
    ensures Split(p) == [p]
    decreases |p|
  {
    if |p| > 0 {
      SplitSinglePiece(p[1..]);
      assert [p[0]] + p[1..] == p;
    }
  }

  /** Splitting the ","-join of separator-free pieces gives the pieces back. */
  lemma {:induction false} SplitJoinPieces(parts: seq<string>)
    requires |parts| >= 1
    requires forall p :: p in parts ==> Separator !in p
    ensures Split(JoinPieces(parts)) == parts
    decreases |parts|
  {
    if |parts| == 1 {
      SplitSinglePiece(parts[0]);
    } else {
      SplitJoinPieces(parts[1..]);
      SplitLeadingPiece(parts[0], JoinPieces(parts[1..]));
      assert [parts[0]] + parts[1..] == parts;
    }
  }
}

=== FILE: lists.dfy ===
/** Generic operations on the parsers' result lists: selection by field name,
    as Filters and Sorts both offer it, and element-wise parsing. */
module Lists {
  import opened Wrappers

  /** `a` is `b` with some elements left out, the rest kept in order. */
  predicate IsSubsequence<T(==)>(a: seq<T>, b: seq<T>)
    decreases |b|
  {
    |a| == 0 || (|b| > 0 && ((a[0] == b[0] && IsSubsequence(a[1..], b[1..])) || IsSubsequence(a, b[1..])))
  }

  /** The elements of `s` whose key is `name`, in their original order. */
  function Matching<T(==)>(s: seq<T>, key: T -> string, name: string): (r: seq<T>)
    ensures forall x :: x in r ==> key(x) == name
    ensures IsSubsequence(r, s)
  {
    if |s| == 0 then []
    else
      var t := Matching(s[1..], key, name);
      if key(s[0]) == name then
        assert ([s[0]] + t)[1..] == t;
        [s[0]] + t
      else
        assert IsSubsequence(t, s);
        t
  }

  /** Selection keeps every element with the key as often as it occurs, and no other. */
  lemma {:induction false} MatchingCount<T>(s: seq<T>, key: T -> string, name: string, x: T)
    ensures multiset(Matching(s, key, name))[x] == if key(x) == name then multiset(s)[x] else 0
    decreases |s|
  {
    if |s| > 0 {
      assert s == [s[0]] + s[1..];
      MatchingCount(s[1..], key, name, x);
    }
  }

  /** `x` once for every occurrence of `k` among `names`. */
  function Copies<T>(x: T, k: string, names: seq<string>): (r: seq<T>)
    ensures |r| == multiset(names)[k]
    ensures forall y :: y in r ==> y == x
  {
    if |names| == 0 then []
    else
      assert names == [names[0]] + names[1..];
      (if names[0] == k then [x] else []) + Copies(x, k, names[1..])
  }

  /** For each element of `s` in order, the element once per occurrence of its key
      among `names`: duplicate names duplicate the output. */
  function MatchingAny<T(==)>(s: seq<T>, key: T -> string, names: seq<string>): (r: seq<T>)
    ensures forall x :: x in r ==> x in s && key(x) in names
    ensures |names| == 0 ==> r == []
  {
    if |s| == 0 then []
    else
      var c := Copies(s[0], key(s[0]), names);
      var t := MatchingAny(s[1..], key, names);
      assert forall x :: x in t ==> x in s[1..];
      assert forall x :: x in c ==> x == s[0] && multiset(names)[key(s[0])] > 0;
      c + t
  }

  /** Each element occurs in the selection as often as it occurs in `s`
      times the number of times its key is named. */
  lemma {:induction false} MatchingAnyCount<T>(s: seq<T>, key: T -> string, names: seq<string>, x: T)
    ensures multiset(MatchingAny(s, key, names))[x] == multiset(s)[x] * multiset(names)[key(x)]
    decreases |s|
  {
    if |s| > 0 {
      MatchingAnyCount(s[1..], key, names, x);
      MatchingAnyStep(s, key, names, x);
      HeadCount(s, x);
      if x == s[0] {
        Distribute(1, multiset(s[1..])[x], multiset(names)[key(x)]);
      }
    }
  }

  /** One step of the selection, counted for `x`. */
  lemma MatchingAnyStep<T>(s: seq<T>, key: T -> string, names: seq<string>, x: T)
    requires |s| > 0
    ensures multiset(MatchingAny(s, key, names))[x]
      == (if x == s[0] then multiset(names)[key(x)] else 0) + multiset(MatchingAny(s[1..], key, names))[x]
  {
    var c := Copies(s[0], key(s[0]), names);
    var t := MatchingAny(s[1..], key, names);
    assert MatchingAny(s, key, names) == c + t;
    assert multiset(c + t) == multiset(c) + multiset(t);
    CopiesCount(s[0], key(s[0]), names, x);
  }

  lemma HeadCount<T>(s: seq<T>, x: T)
    requires |s| > 0
    ensures multiset(s)[x] == (if x == s[0] then 1 else 0) + multiset(s[1..])[x]
  {
    assert s == [s[0]] + s[1..];
  }

  lemma Distribute(a: int, b: int, k: int)
    ensures a * k + b * k == (a + b) * k
  {
  }

  lemma {:induction false} CopiesCount<T>(x: T, k: string, names: seq<string>, y: T)
    ensures multiset(Copies(x, k, names))[y] == if y == x then multiset(names)[k] else 0
    decreases |names|
  {
    if |names| > 0 {
      assert names == [names[0]] + names[1..];
      CopiesCount(x, k, names[1..], y);
    }
  }

  /** Every element whose key is named is kept. */
  lemma {:induction false} MatchingAnyKeeps<T>(s: seq<T>, key: T -> string, names: seq<string>, x: T)
    requires x in s && key(x) in names
    ensures x in MatchingAny(s, key, names)
    decreases |s|
  {
    var c := Copies(s[0], key(s[0]), names);
    if x == s[0] {
      assert |c| > 0 && c[0] in c;
      assert (c + MatchingAny(s[1..], key, names))[0] == x;
    } else {
      assert x in s[1..];
      MatchingAnyKeeps(s[1..], key, names, x);
    }
  }

  /** Whether some element of `s` has key `name`. */
  function Exists<T>(s: seq<T>, key: T -> string, name: string): (b: bool)
    ensures b <==> exists i :: 0 <= i < |s| && key(s[i]) == name
  {
    if |s| == 0 then false
    else key(s[0]) == name || Exists(s[1..], key, name)
  }

  /** Some element has the key exactly when selecting by the key keeps something. */
  lemma ExistsIffMatching<T>(s: seq<T>, key: T -> string, name: string)
    ensures Exists(s, key, name) <==> |Matching(s, key, name)| > 0
  {
    var r := Matching(s, key, name);
    if Exists(s, key, name) {
      var i :| 0 <= i < |s| && key(s[i]) == name;
      assert s[i] in multiset(s);
      MatchingCount(s, key, name, s[i]);
    }
    if |r| > 0 {
      assert r[0] in multiset(r);
      MatchingCount(s, key, name, r[0]);
      var i :| 0 <= i < |s| && s[i] == r[0];
    }
  }

  /** Selection distributes over concatenation: each half keeps its own order. */
  lemma {:induction false} MatchingAppend<T>(s: seq<T>, u: seq<T>, key: T -> string, name: string)
    ensures Matching(s + u, key, name) == Matching(s, key, name) + Matching(u, key, name)
    decreases |s|
  {
    if |s| > 0 {
      assert (s + u)[0] == s[0];
      assert (s + u)[1..] == s[1..] + u;
      MatchingAppend(s[1..], u, key, name);
      var head := if key(s[0]) == name then [s[0]] else [];
      assert Matching(s + u, key, name) == head + Matching(s[1..] + u, key, name);
      assert Matching(s, key, name) == head + Matching(s[1..], key, name);
    } else {
      assert s + u == u;
    }
  }

  /** Selection by several names distributes over concatenation. */
  lemma {:induction false} MatchingAnyAppend<T>(s: seq<T>, u: seq<T>, key: T -> string, names: seq<string>)
    ensures MatchingAny(s + u, key, names) == MatchingAny(s, key, names) + MatchingAny(u, key, names)
    decreases |s|
  {
    if |s| > 0 {
      assert (s + u)[0] == s[0];
      assert (s + u)[1..] == s[1..] + u;
      MatchingAnyAppend(s[1..], u, key, names);
      var c := Copies(s[0], key(s[0]), names);
      assert MatchingAny(s + u, key, names) == c + MatchingAny(s[1..] + u, key, names);
      assert MatchingAny(s, key, names) == c + MatchingAny(s[1..], key, names);
    } else {
      assert s + u == u;
    }
  }

  /** Selecting by a one-name list is selecting by that name. */
  lemma {:induction false} MatchingAnySingle<T>(s: seq<T>, key: T -> string, name: string)
    ensures MatchingAny(s, key, [name]) == Matching(s, key, name)
    decreases |s|
  {
    if |s| > 0 {
      MatchingAnySingle(s[1..], key, name);
      assert [name][1..] == [];
    }
  }

  /** Parses every string in turn; fails as soon as one piece fails. */
  function ParseEach<T>(pieces: seq<string>, parse: string -> Option<T>): (r: Option<seq<T>>)
    ensures r.Some? <==> forall i :: 0 <= i < |pieces| ==> parse(pieces[i]).Some?
    ensures r.Some? ==> |r.value| == |pieces|
    ensures r.Some? ==> forall i :: 0 <= i < |pieces| ==> parse(pieces[i]) == Some(r.value[i])
  {
    if |pieces| == 0 then Some([])
    else
      match parse(pieces[0])
      case None => None
      case Some(x) =>
        match ParseEach(pieces[1..], parse)
        case None => None
        case Some(xs) => Some([x] + xs)
  }

  /** Parsing a list gives exactly the element-wise parses when each piece parses. */
  lemma {:induction false} ParseEachOf<T>(pieces: seq<string>, parse: string -> Option<T>, xs: seq<T>)
    requires |pieces| == |xs|
    requires forall i :: 0 <= i < |pieces| ==> parse(pieces[i]) == Some(xs[i])
    ensures ParseEach(pieces, parse) == Some(xs)
    decreases |pieces|
  {
    if |pieces| > 0 {
      assert parse(pieces[0]) == Some(xs[0]);
      ParseEachOf(pieces[1..], parse, xs[1..]);
      assert [xs[0]] + xs[1..] == xs;
    }
  }
}

=== FILE: numbers.dfy ===
/** Decimal integer text: `strconv.Atoi` over unbounded integers, and its inverse. */
module Numbers {
  import opened Wrappers

  predicate IsDigit(c: char) {
    '0' <= c <= '9'
  }

  predicate AllDigits(s: string) {
    forall i :: 0 <= i < |s| ==> IsDigit(s[i])
  }

  /** The value of a string of decimal digits, most significant digit first. */
  function DigitsValue(s: string): nat
    requires AllDigits(s)
  {
    if |s| == 0 then 0 else 10 * DigitsValue(s[..|s| - 1]) + (s[|s| - 1] as int - '0' as int)
  }

  /** An optional '+' or '-' followed by one or more decimal digits, as `strconv.Atoi`
      accepts; anything else (the empty string, a bare sign, a letter) is `None`. */
  function Atoi(s: string): (r: Option<int>)
    ensures r.Some? ==> |s| > 0
    ensures r.Some? && s[0] == '-' ==> r.value <= 0
    ensures r.Some? && s[0] != '-' ==> r.value >= 0
    ensures |s| > 0 && AllDigits(s) ==> r == Some(DigitsValue(s))
    ensures r.Some? && s[0] == '-' ==> AllDigits(s[1..]) && r.value == 0 - DigitsValue(s[1..]) as int
    ensures r.Some? && s[0] == '+' ==> AllDigits(s[1..]) && r.value == DigitsValue(s[1..]) as int
    ensures r.None? <==>
      !(|s| > 0 && AllDigits(s)) && !(|s| > 1 && (s[0] == '+' || s[0] == '-') && AllDigits(s[1..]))
  {
    if |s| > 0 && (s[0] == '+' || s[0] == '-') then
      var digits := s[1..];
      if |digits| == 0 || !AllDigits(digits) then None
      else if s[0] == '-' then Some(0 - DigitsValue(digits) as int)
      else Some(DigitsValue(digits))
    else if |s| == 0 || !AllDigits(s) then None
    else Some(DigitsValue(s))
  }

  function DigitChar(d: nat): (c: char)
    requires d < 10
    ensures IsDigit(c) && c as int - '0' as int == d
  {
    ('0' as int + d) as char
  }

  /** The canonical decimal text of a natural number, no leading zeros. */
  function NatText(n: nat): (r: string)
    ensures |r| > 0 && AllDigits(r) && DigitsValue(r) == n
    ensures r[0] == '0' <==> n == 0
    ensures |r| > 1 ==> r[0] != '0'
  {
    if n < 10 then [DigitChar(n)]
    else
      var r := NatText(n / 10) + [DigitChar(n % 10)];
      assert r[..|r| - 1] == NatText(n / 10);
      r
  }

  /** The canonical decimal text of an integer (Go's `strconv.Itoa`). */
  function Itoa(n: int): string {
    if n < 0 then "-" + NatText(-n) else NatText(n)
  }

  /** Parsing the text of an integer gives the integer back. */
  lemma AtoiItoa(n: int)
    ensures Atoi(Itoa(n)) == Some(n)
  {
    if n < 0 {
      var s := Itoa(n);
      assert s[1..] == NatText(-n);
    }
  }
}

=== FILE: options.dfy ===
/** The option shape shared by the filter, sort and join parsers: a query key and
    a maximum number of values, where a maximum of 0 means "no maximum". */
module Options {
  import opened Wrappers

  datatype ListOptions = ListOptions(key: string, max: int)

  /** Options as the parsers use them: a non-empty key and a non-negative maximum. */
  predicate IsNormalized(o: ListOptions) {
    |o.key| > 0 && o.max >= 0
  }

  /** Fills in defaults: no options or an empty key gives `defaultKey`; a maximum
      that is not positive gives 0. */
  function Init(opt: Option<ListOptions>, defaultKey: string): (r: ListOptions)
    requires |defaultKey| > 0
    ensures IsNormalized(r)
    ensures opt.None? ==> r == ListOptions(defaultKey, 0)
    ensures opt.Some? && |opt.value.key| > 0 ==> r.key == opt.value.key
    ensures opt.Some? && |opt.value.key| == 0 ==> r.key == defaultKey
    ensures opt.Some? && opt.value.max > 0 ==> r.max == opt.value.max
    ensures opt.Some? && opt.value.max <= 0 ==> r.max == 0
    ensures opt.Some? && IsNormalized(opt.value) ==> r == opt.value
  {
    match opt
    case None => ListOptions(defaultKey, 0)
    case Some(o) =>
      ListOptions(if |o.key| > 0 then o.key else defaultKey, if o.max > 0 then o.max else 0)
  }

  /** Filling in defaults twice is filling them in once. */
  lemma InitIdempotent(opt: Option<ListOptions>, defaultKey: string)
    requires |defaultKey| > 0
    ensures Init(Some(Init(opt, defaultKey)), defaultKey) == Init(opt, defaultKey)
  {
  }

  /** The maximum-count check every list parser performs before looking at any value:
      a maximum that is not positive imposes none, and a single value is never too many. */
  function TooMany(o: ListOptions, count: nat): (b: bool)
    ensures o.max <= 0 ==> !b
    ensures b ==> count > 1
  {
    o.max > 0 && count > o.max
  }

  /** Fewer values are never too many when more are not. */
  lemma TooManyMonotone(o: ListOptions, fewer: nat, more: nat)
    requires fewer <= more
    ensures TooMany(o, fewer) ==> TooMany(o, more)
  {
  }
}

=== FILE: page.dfy ===
/** `ReadPage`: pagination, filters, sorts and joins read from one query. */
module Pages {
  import opened Wrappers
  import opened QueryValues
  import opened Options
  import opened Paging
  import opened Filters
  import opened Sorts
  import opened Joins

  /** The four results together; only the pagination is always present. */
  datatype Page = Page(
    pagination: Pagination,
    filters: Option<seq<Filter>>,
    sorts: Option<seq<Sort>>,
    joins: Option<set<string>>)

  /** Per-parser options; an absent entry means that parser's defaults. */
  datatype PageOptions = PageOptions(
    pagination: Option<PaginationOptions>,
    filter: Option<ListOptions>,
    sort: Option<ListOptions>,
    join: Option<ListOptions>)

  // The options a caller passed for each parser; no page options means none for any.

  function PaginationOf(opt: Option<PageOptions>): Option<PaginationOptions> {
    if opt.Some? then opt.value.pagination else None
  }

  function FilterOf(opt: Option<PageOptions>): Option<ListOptions> {
    if opt.Some? then opt.value.filter else None
  }

  function SortOf(opt: Option<PageOptions>): Option<ListOptions> {
    if opt.Some? then opt.value.sort else None
  }

  function JoinOf(opt: Option<PageOptions>): Option<ListOptions> {
    if opt.Some? then opt.value.join else None
  }

  /** `initPageOptions`, as written: the pagination, filter and sort options are
      initialised, and the join options are dropped whatever the caller passed.
      Initialising is transparent: the sub-parsers end up with the options they
      would have built from the caller's own. */
  function InitPageOptions(opt: Option<PageOptions>): (r: PageOptions)
    ensures r.join.None?
    ensures opt.None? ==> r == PageOptions(None, None, None, None)
    ensures Paging.InitOptions(r.pagination) == Paging.InitOptions(PaginationOf(opt))
    ensures Filters.InitOptions(r.filter) == Filters.InitOptions(FilterOf(opt))
    ensures Sorts.InitOptions(r.sort) == Sorts.InitOptions(SortOf(opt))
  {
    match opt
    case None => PageOptions(None, None, None, None)
    case Some(o) =>
      PageOptions(
        Some(Paging.InitOptions(o.pagination)),
        Some(Filters.InitOptions(o.filter)),
        Some(Sorts.InitOptions(o.sort)),
        None)
  }

  /** `ReadPage`: runs the parsers in the order pagination, filters, sorts, joins and
      returns the first error, with no partial page. Joins are always read with the
      default join options. */
  function ReadPage(values: Values, opt: Option<PageOptions>): (r: Result<Page, Error>)
    ensures var p := ReadPagination(values, PaginationOf(opt));
      p.Err? ==> r == Err(p.error)
    ensures var p, f := ReadPagination(values, PaginationOf(opt)), ReadFilters(values, FilterOf(opt));
      p.Ok? && f.Err? ==> r == Err(f.error)
    ensures var p, f, s :=
        ReadPagination(values, PaginationOf(opt)), ReadFilters(values, FilterOf(opt)), ReadSorts(values, SortOf(opt));
      p.Ok? && f.Ok? && s.Err? ==> r == Err(s.error)
    ensures var p, f, s, j :=
        ReadPagination(values, PaginationOf(opt)), ReadFilters(values, FilterOf(opt)),
        ReadSorts(values, SortOf(opt)), ReadJoins(values, None);
      p.Ok? && f.Ok? && s.Ok? && j.Err? ==> r == Err(j.error)
    ensures var p, f, s, j :=
        ReadPagination(values, PaginationOf(opt)), ReadFilters(values, FilterOf(opt)),
        ReadSorts(values, SortOf(opt)), ReadJoins(values, None);
      r.Ok? <==> p.Ok? && f.Ok? && s.Ok? && j.Ok?
    ensures var p, f, s, j :=
        ReadPagination(values, PaginationOf(opt)), ReadFilters(values, FilterOf(opt)),
        ReadSorts(values, SortOf(opt)), ReadJoins(values, None);
      r.Ok? ==> r.value == Page(p.value, f.value, s.value, j.value)
  {
    var o := InitPageOptions(opt);
    ReadPaginationSameOptions(values, o.pagination, PaginationOf(opt));
    ReadFiltersSameOptions(values, o.filter, FilterOf(opt));
    ReadSortsSameOptions(values, o.sort, SortOf(opt));
    var pagination :- ReadPagination(values, o.pagination);
    var filters :- ReadFilters(values, o.filter);
    var sorts :- ReadSorts(values, o.sort);
    var joins :- ReadJoins(values, o.join);
    Ok(Page(pagination, filters, sorts, joins))
  }

  /** The join options a caller passes to `ReadPage` make no difference. */
  lemma JoinOptionsIgnored(values: Values, o: PageOptions, join: Option<ListOptions>)
    ensures ReadPage(values, Some(o)) == ReadPage(values, Some(o.(join := join)))
  {
  }

  /** A page with a custom join key: read directly, the join is found; read through
      `ReadPage`, the custom key is dropped and no join is reported. */
  lemma JoinKeyDropped()
    ensures var values := map["relation" := ["author"]];
      var joinOpt := ListOptions("relation", 0);
      ReadJoins(values, Some(joinOpt)) == Ok(Some({"author"}))
      && ReadPage(values, Some(PageOptions(None, None, None, Some(joinOpt))))
         == Ok(Page(Pagination(0, 0, 0), None, None, None))
  {
    ReadsAuthor();
  }

  /** The join "author" under the key "relation". */
  lemma ReadsAuthor()
    ensures ReadJoins(map["relation" := ["author"]], Some(ListOptions("relation", 0))) == Ok(Some({"author"}))
  {
    assert IsJoinName("author");
    var c := Collect(["author"]);
    assert c.Some?;
    assert forall n :: n in c.value <==> n == "author";
    assert c.value == {"author"};
  }

  /** `initPageOptions` with the join options copied like the other three. */
  function InitPageOptionsIntended(opt: Option<PageOptions>): (r: PageOptions)
    ensures Joins.InitOptions(r.join) == Joins.InitOptions(JoinOf(opt))
    ensures Paging.InitOptions(r.pagination) == Paging.InitOptions(PaginationOf(opt))
    ensures Filters.InitOptions(r.filter) == Filters.InitOptions(FilterOf(opt))
    ensures Sorts.InitOptions(r.sort) == Sorts.InitOptions(SortOf(opt))
  {
    match opt
    case None => PageOptions(None, None, None, None)
    case Some(o) =>
      PageOptions(
        Some(Paging.InitOptions(o.pagination)),
        Some(Filters.InitOptions(o.filter)),
        Some(Sorts.InitOptions(o.sort)),
        Some(Joins.InitOptions(o.join)))
  }

  /** `ReadPage` as evidently intended: every parser, joins included, reads with
      the caller's options. */
  function ReadPageIntended(values: Values, opt: Option<PageOptions>): (r: Result<Page, Error>)
    ensures var p, f, s, j :=
        ReadPagination(values, PaginationOf(opt)), ReadFilters(values, FilterOf(opt)),
        ReadSorts(values, SortOf(opt)), ReadJoins(values, JoinOf(opt));
      r.Ok? <==> p.Ok? && f.Ok? && s.Ok? && j.Ok?
    ensures var p, f, s, j :=
        ReadPagination(values, PaginationOf(opt)), ReadFilters(values, FilterOf(opt)),
        ReadSorts(values, SortOf(opt)), ReadJoins(values, JoinOf(opt));
      r.Ok? ==> r.value == Page(p.value, f.value, s.value, j.value)
    ensures var p, f, s, j :=
        ReadPagination(values, PaginationOf(opt)), ReadFilters(values, FilterOf(opt)),
        ReadSorts(values, SortOf(opt)), ReadJoins(values, JoinOf(opt));
      r.Err? ==> r.error == (if p.Err? then p.error else if f.Err? then f.error
                             else if s.Err? then s.error else j.error)
  {
    var o := InitPageOptionsIntended(opt);
    ReadPaginationSameOptions(values, o.pagination, PaginationOf(opt));
    ReadFiltersSameOptions(values, o.filter, FilterOf(opt));
    ReadSortsSameOptions(values, o.sort, SortOf(opt));
    ReadJoinsSameOptions(values, o.join, JoinOf(opt));
    var pagination :- ReadPagination(values, o.pagination);
    var filters :- ReadFilters(values, o.filter);
    var sorts :- ReadSorts(values, o.sort);
    var joins :- ReadJoins(values, o.join);
    Ok(Page(pagination, filters, sorts, joins))
  }

  /** Without page options the two agree: the omission only shows with options. */
  lemma IntendedAgreesWithoutOptions(values: Values)
    ensures ReadPageIntended(values, None) == ReadPage(values, None)
  {
  }
}

=== FILE: pagination.dfy ===
/** `ReadPagination`: limit, offset and page from the query string. */
module Paging {
  import opened Wrappers
  import opened QueryValues
  import opened Numbers

  /** Page size and offset; `page` is 0 unless the offset was derived from a page number. */
  datatype Pagination = Pagination(limit: int, offset: int, page: int)

  datatype PaginationOptions = PaginationOptions(
    limitKey: string, offsetKey: string, pageKey: string,
    maxLimit: int,  // if > 0, the limit is clamped to this maximum
    minLimit: int)  // the limit is clamped to this minimum

  const DefaultOptions := PaginationOptions("limit", "offset", "page", 0, 0)

  /** Options as `ReadPagination` uses them: non-empty keys, non-negative bounds. */
  predicate IsNormalized(o: PaginationOptions) {
    |o.limitKey| > 0 && |o.offsetKey| > 0 && |o.pageKey| > 0 && o.maxLimit >= 0 && o.minLimit >= 0
  }

  /** `initPaginationOptions`: empty keys take their defaults, bounds that are not
      positive become 0. */
  function InitOptions(opt: Option<PaginationOptions>): (r: PaginationOptions)
    ensures IsNormalized(r)
    ensures opt.None? ==> r == DefaultOptions
    ensures opt.Some? && IsNormalized(opt.value) ==> r == opt.value
    ensures opt.Some? && |opt.value.limitKey| > 0 ==> r.limitKey == opt.value.limitKey
    ensures opt.Some? && |opt.value.offsetKey| > 0 ==> r.offsetKey == opt.value.offsetKey
    ensures opt.Some? && |opt.value.pageKey| > 0 ==> r.pageKey == opt.value.pageKey
    ensures opt.Some? && opt.value.maxLimit > 0 ==> r.maxLimit == opt.value.maxLimit
    ensures opt.Some? && opt.value.minLimit > 0 ==> r.minLimit == opt.value.minLimit
    ensures opt.Some? && |opt.value.limitKey| == 0 ==> r.limitKey == DefaultOptions.limitKey
    ensures opt.Some? && |opt.value.offsetKey| == 0 ==> r.offsetKey == DefaultOptions.offsetKey
    ensures opt.Some? && |opt.value.pageKey| == 0 ==> r.pageKey == DefaultOptions.pageKey
    ensures opt.Some? && opt.value.maxLimit <= 0 ==> r.maxLimit == 0
    ensures opt.Some? && opt.value.minLimit <= 0 ==> r.minLimit == 0
  {
    match opt
    case None => DefaultOptions
    case Some(o) =>
      PaginationOptions(
        if |o.limitKey| > 0 then o.limitKey else DefaultOptions.limitKey,
        if |o.offsetKey| > 0 then o.offsetKey else DefaultOptions.offsetKey,
        if |o.pageKey| > 0 then o.pageKey else DefaultOptions.pageKey,
        if o.maxLimit > 0 then o.maxLimit else 0,
        if o.minLimit > 0 then o.minLimit else 0)
  }

  /** Initialising options twice is initialising them once. */
  lemma InitOptionsIdempotent(opt: Option<PaginationOptions>)
    ensures InitOptions(Some(InitOptions(opt))) == InitOptions(opt)
  {
  }

  /** The limit after clamping: a positive maximum is checked first and wins;
      only otherwise is the limit raised to the minimum. */
  function Clamp(limit: int, maxLimit: int, minLimit: int): (r: int)
    ensures r == limit || r == maxLimit || r == minLimit
    ensures maxLimit >= 0 && minLimit >= 0 ==> r >= 0
    ensures maxLimit > 0 && limit > maxLimit ==> r == maxLimit
    ensures maxLimit > 0 && minLimit <= maxLimit ==> minLimit <= r <= maxLimit
    ensures !(maxLimit > 0 && limit > maxLimit) ==> r >= minLimit && r >= limit && (r == limit || r == minLimit)
    ensures minLimit <= limit && (maxLimit <= 0 || limit <= maxLimit) ==> r == limit
  {
    if maxLimit > 0 && limit > maxLimit then maxLimit
    else if limit < minLimit then minLimit
    else limit
  }

  /** Clamping is idempotent when there is no maximum or the bounds do not cross. */
  lemma ClampIdempotent(limit: int, maxLimit: int, minLimit: int)
    requires maxLimit <= 0 || minLimit <= maxLimit
    ensures Clamp(Clamp(limit, maxLimit, minLimit), maxLimit, minLimit) == Clamp(limit, maxLimit, minLimit)
  {
  }

  /** With a minimum above a positive maximum the maximum wins, so the limit can end
      up below the minimum and clamping twice differs from clamping once. */
  lemma ClampCrossedBounds()
    ensures Clamp(20, 5, 10) == 5 < 10
    ensures Clamp(3, 5, 10) == 10 && Clamp(Clamp(3, 5, 10), 5, 10) == 5
  {
  }

  /** `key` is present but its first value is not an integer. */
  predicate Malformed(values: Values, key: string) {
    key in values && Atoi(Get(values, key)).None?
  }

  /** The integer under a present, well-formed key. */
  function IntAt(values: Values, key: string): int
    requires key in values && !Malformed(values, key)
  {
    Atoi(Get(values, key)).value
  }

  /** `ReadPagination`. A missing limit is 0. An offset key wins over a page key;
      a page key alone gives offset (page - 1) * limit. */
  function ReadPagination(values: Values, opt: Option<PaginationOptions>): (r: Result<Pagination, Error>)
    ensures var o := InitOptions(opt);
      r == Err(InvalidLimit) <==> Malformed(values, o.limitKey)
    ensures var o := InitOptions(opt);
      r == Err(InvalidOffset) <==> !Malformed(values, o.limitKey) && Malformed(values, o.offsetKey)
    ensures var o := InitOptions(opt);
      r == Err(InvalidPage) <==>
        !Malformed(values, o.limitKey) && o.offsetKey !in values && Malformed(values, o.pageKey)
    ensures r.Err? ==> r.error in {InvalidLimit, InvalidOffset, InvalidPage}
    ensures var o := InitOptions(opt);
      r.Ok? ==> (r.value.limit >= 0 &&
                 (o.maxLimit > 0 && o.minLimit <= o.maxLimit ==> o.minLimit <= r.value.limit <= o.maxLimit))
    ensures var o := InitOptions(opt);
      r.Ok? ==> r.value.limit == Clamp(if o.limitKey in values then IntAt(values, o.limitKey) else 0, o.maxLimit, o.minLimit)
    ensures var o := InitOptions(opt);
      r.Ok? && o.offsetKey in values ==> r.value.offset == IntAt(values, o.offsetKey) && r.value.page == 0
    ensures var o := InitOptions(opt);
      r.Ok? && o.offsetKey !in values && o.pageKey in values ==>
        r.value.page == IntAt(values, o.pageKey) && r.value.offset == (r.value.page - 1) * r.value.limit
    ensures var o := InitOptions(opt);
      r.Ok? && o.offsetKey !in values && o.pageKey !in values ==> r.value.offset == 0 && r.value.page == 0
  {
    var o := InitOptions(opt);
    var requested := if o.limitKey in values then Atoi(Get(values, o.limitKey)) else Some(0);
    if requested.None? then Err(InvalidLimit)
    else
      var limit := Clamp(requested.value, o.maxLimit, o.minLimit);
      if o.offsetKey in values then
        match Atoi(Get(values, o.offsetKey))
        case None => Err(InvalidOffset)
        case Some(offset) => Ok(Pagination(limit, offset, 0))
      else if o.pageKey in values then
        match Atoi(Get(values, o.pageKey))
        case None => Err(InvalidPage)
        case Some(page) => Ok(Pagination(limit, (page - 1) * limit, page))
      else Ok(Pagination(limit, 0, 0))
  }

  /** The result depends on the options only through their initialised form. */
  lemma ReadPaginationSameOptions(values: Values, a: Option<PaginationOptions>, b: Option<PaginationOptions>)
    requires InitOptions(a) == InitOptions(b)
    ensures ReadPagination(values, a) == ReadPagination(values, b)
  {
  }

  /** Whether `p` could have come out of `ReadPagination`: the limit is already
      clamped and a non-zero page determines the offset. */
  predicate IsReadable(p: Pagination, o: PaginationOptions) {
    Clamp(p.limit, o.maxLimit, o.minLimit) == p.limit
    && (p.page != 0 ==> p.offset == (p.page - 1) * p.limit)
  }

  /** The query parameters that denote `p`: the limit, and the page when there is one,
      otherwise the offset. */
  function Encode(p: Pagination, o: PaginationOptions): Values {
    if p.page == 0 then map[o.limitKey := [Itoa(p.limit)], o.offsetKey := [Itoa(p.offset)]]
    else map[o.limitKey := [Itoa(p.limit)], o.pageKey := [Itoa(p.page)]]
  }

  /** Reading the encoding of a readable pagination gives it back. */
  lemma ReadEncode(p: Pagination, o: PaginationOptions)
    requires IsNormalized(o)
    requires o.limitKey != o.offsetKey && o.limitKey != o.pageKey && o.offsetKey != o.pageKey
    requires IsReadable(p, o)
    ensures ReadPagination(Encode(p, o), Some(o)) == Ok(p)
  {
    AtoiItoa(p.limit);
    AtoiItoa(p.offset);
    AtoiItoa(p.page);
  }

  /** With ordered bounds every pagination the reader returns is readable, so
      `ReadEncode` applies to it. */
  lemma ReadIsReadable(values: Values, opt: Option<PaginationOptions>, p: Pagination)
    requires ReadPagination(values, opt) == Ok(p)
    requires var o := InitOptions(opt); o.maxLimit == 0 || o.minLimit <= o.maxLimit
    ensures IsReadable(p, InitOptions(opt))
  {
    var o := InitOptions(opt);
    var requested := if o.limitKey in values then IntAt(values, o.limitKey) else 0;
    ClampIdempotent(requested, o.maxLimit, o.minLimit);
  }

  /** Once an offset is given the page key is never read: any page value, even a
      malformed one, leaves the result unchanged. */
  lemma OffsetIgnoresPage(values: Values, opt: Option<PaginationOptions>, pageValues: seq<string>)
    requires var o := InitOptions(opt);
      o.offsetKey in values && o.pageKey != o.offsetKey && o.pageKey != o.limitKey
    ensures ReadPagination(values[InitOptions(opt).pageKey := pageValues], opt) == ReadPagination(values, opt)
  {
    var o := InitOptions(opt);
    var v2 := values[o.pageKey := pageValues];
    assert Get(v2, o.limitKey) == Get(values, o.limitKey);
    assert Get(v2, o.offsetKey) == Get(values, o.offsetKey);
  }

  /** Only the first value of a repeated key is read. */
  lemma FirstValueWins(values: Values, opt: Option<PaginationOptions>, key: string, first: string, rest: seq<string>)
    ensures ReadPagination(values[key := [first] + rest], opt) == ReadPagination(values[key := [first]], opt)
  {
    var a := values[key := [first] + rest];
    var b := values[key := [first]];
    assert forall k :: Get(a, k) == Get(b, k);
  }
}

=== FILE: scenarios.dfy ===
/** The concrete cases of the repository's tests, proved about the model. */
module Scenarios {
  import opened Wrappers
  import opened QueryValues
  import opened Numbers
  import opened Options
  import opened Paging
  import opened Filters
  import opened Sorts
  import opened Joins
  import opened Pages
  import Lists

  lemma PaginationCases()
    ensures ReadPagination(map[], None) == Ok(Pagination(0, 0, 0))
    ensures ReadPagination(map["limit" := ["10"]], None) == Ok(Pagination(10, 0, 0))
    ensures ReadPagination(map["offset" := ["5"]], None) == Ok(Pagination(0, 5, 0))
    ensures ReadPagination(map["limit" := ["10"], "page" := ["3"]], None) == Ok(Pagination(10, 20, 3))
    ensures ReadPagination(map["limit" := ["10"], "offset" := ["5"], "page" := ["3"]], None) == Ok(Pagination(10, 5, 0))
  {
    assert Atoi("10") == Some(10);
    assert Atoi("5") == Some(5);
    assert Atoi("3") == Some(3);
  }

  lemma PaginationBoundsCases()
    ensures var o := Some(PaginationOptions("", "", "", 10, 5));
      && ReadPagination(map[], o) == Ok(Pagination(5, 0, 0))
      && ReadPagination(map["limit" := ["3"]], o) == Ok(Pagination(5, 0, 0))
      && ReadPagination(map["limit" := ["20"]], o) == Ok(Pagination(10, 0, 0))
  {
    assert Atoi("3") == Some(3);
    assert Atoi("20") == Some(20);
  }

  lemma PaginationErrorCases()
    ensures ReadPagination(map["limit" := ["abc"]], None) == Err(InvalidLimit)
    ensures ReadPagination(map["offset" := ["def"]], None) == Err(InvalidOffset)
    ensures ReadPagination(map["page" := ["ghi"]], None) == Err(InvalidPage)
    ensures ReadPagination(map["limit" := ["abc"], "offset" := ["5"]], None) == Err(InvalidLimit)
    ensures ReadPagination(map["limit" := ["5"], "offset" := ["def"]], None) == Err(InvalidOffset)
    ensures ReadPagination(map["limit" := ["5"], "page" := ["ghi"]], None) == Err(InvalidPage)
  {
    assert !IsDigit('a') && !IsDigit('d') && !IsDigit('g');
    assert Atoi("5") == Some(5);
  }

  /** Reading texts that are the formats of well-formed conditions gives those conditions. */
  lemma ReadsFilters(values: Values, texts: seq<string>, filters: seq<Filter>)
    requires "filter" in values && values["filter"] == texts
    requires |texts| == |filters|
    requires forall i :: 0 <= i < |texts| ==> Filters.IsWellFormed(filters[i]) && Filters.Format(filters[i]) == texts[i]
    ensures ReadFilters(values, None) == Ok(Some(filters))
  {
    forall i | 0 <= i < |texts|
      ensures Filters.Parse(texts[i]) == Some(filters[i])
    {
      Filters.ParseFormat(filters[i]);
    }
    Lists.ParseEachOf(texts, Filters.Parse, filters);
  }

  /** Reading texts that are the formats of well-formed orderings gives those orderings. */
  lemma ReadsSorts(values: Values, texts: seq<string>, sorts: seq<Sort>)
    requires "sort" in values && values["sort"] == texts
    requires |texts| == |sorts|
    requires forall i :: 0 <= i < |texts| ==> Sorts.IsWellFormed(sorts[i]) && Sorts.Format(sorts[i]) == texts[i]
    ensures ReadSorts(values, None) == Ok(Some(sorts))
  {
    forall i | 0 <= i < |texts|
      ensures Sorts.Parse(texts[i]) == Some(sorts[i])
    {
      Sorts.ParseFormat(sorts[i]);
    }
    Lists.ParseEachOf(texts, Sorts.Parse, sorts);
  }

  /** No filter key: absent, not an empty list. */
  lemma NoFilters()
    ensures ReadFilters(map[], None) == Ok(None)
  {
  }

  /** `title eq Spaghetti` is one condition. */
  lemma OneFilter()
    ensures ReadFilters(map["filter" := ["title eq Spaghetti"]], None)
         == Ok(Some([Filter("title", "eq", "Spaghetti")]))
  {
    var f := Filter("title", "eq", "Spaghetti");
    assert Filters.Format(f) == "title" + " " + ("eq" + " " + "Spaghetti") == "title eq Spaghetti";
    ReadsFilters(map["filter" := ["title eq Spaghetti"]], ["title eq Spaghetti"], [f]);
  }

  /** Two conditions keep their order. */
  lemma TwoFilters()
    ensures ReadFilters(map["filter" := ["title eq Bolognese", "serves gte 4"]], None)
         == Ok(Some([Filter("title", "eq", "Bolognese"), Filter("serves", "gte", "4")]))
  {
    var f1 := Filter("title", "eq", "Bolognese");
    var f2 := Filter("serves", "gte", "4");
    assert Filters.Format(f1) == "title" + " " + ("eq" + " " + "Bolognese") == "title eq Bolognese";
    assert Filters.Format(f2) == "serves" + " " + ("gte" + " " + "4") == "serves gte 4";
    ReadsFilters(map["filter" := ["title eq Bolognese", "serves gte 4"]],
                 ["title eq Bolognese", "serves gte 4"], [f1, f2]);
  }

  /** Too many values fail before any value is looked at, even malformed ones. */
  lemma TooManyFiltersFirst()
    ensures ReadFilters(map["filter" := ["not a valid filter", "title eq x"]], Some(ListOptions("", 1)))
         == Err(TooManyFilters)
  {
  }

  /** A field followed by a word that is neither a one-word operator nor "not" does not parse. */
  lemma NoOperator(field: string, word: string, rest: string)
    requires Lexical.IsField(field)
    requires |word| > 0 && ' ' !in word && word != "not" && word !in Filters.WordOperators
    ensures Filters.Parse(field + " " + word + " " + rest).None?
  {
    assert field + " " + word + " " + rest == field + " " + (word + " " + rest);
    Lexical.SplitFieldOf(field, word + " " + rest);
    Lexical.SpaceIndexAfter(word, rest);
  }

  /** "not a valid filter" has no operator after its field "not". */
  lemma MalformedFilter()
    ensures ReadFilters(map["filter" := ["not a valid filter"]], None) == Err(InvalidFilter)
  {
    assert "not" + " " + "a" + " " + "valid filter" == "not a valid filter";
    NoOperator("not", "a", "valid filter");
    RejectsFilters(map["filter" := ["not a valid filter"]], "not a valid filter");
  }

  lemma RejectsFilters(values: Values, text: string)
    requires values == map["filter" := [text]]
    requires Filters.Parse(text).None?
    ensures ReadFilters(values, None) == Err(InvalidFilter)
  {
    assert Filters.Parse(values["filter"][0]).None?;
  }

  lemma NoSorts()
    ensures ReadSorts(map[], None) == Ok(None)
  {
  }

  /** The two orderings of the sort tests and their texts. */
  lemma AscendingTexts()
    ensures Sorts.IsWellFormed(Sort("title", "asc")) && Sorts.Format(Sort("title", "asc")) == "title asc"
    ensures Sorts.IsWellFormed(Sort("serves", "asc")) && Sorts.Format(Sort("serves", "asc")) == "serves asc"
  {
    assert Sorts.Format(Sort("title", "asc")) == "title" + " " + "asc" == "title asc";
    assert Sorts.Format(Sort("serves", "asc")) == "serves" + " " + "asc" == "serves asc";
  }

  lemma OneSort()
    ensures ReadSorts(map["sort" := ["title asc"]], None) == Ok(Some([Sort("title", "asc")]))
  {
    AscendingTexts();
    ReadsSorts(map["sort" := ["title asc"]], ["title asc"], [Sort("title", "asc")]);
  }

  lemma TwoSorts()
    ensures ReadSorts(map["sort" := ["title asc", "serves asc"]], None)
         == Ok(Some([Sort("title", "asc"), Sort("serves", "asc")]))
  {
    AscendingTexts();
    ReadsSorts(map["sort" := ["title asc", "serves asc"]], ["title asc", "serves asc"],
               [Sort("title", "asc"), Sort("serves", "asc")]);
  }

  lemma JoinCases()
    ensures ReadJoins(map[], None) == Ok(None)
    ensures ReadJoins(map["join" := ["ingredient"]], None) == Ok(Some({"ingredient"}))
    ensures ReadJoins(map["join" := ["author", "ingredient"]], None) == Ok(Some({"author", "ingredient"}))
  {
    assert IsJoinName("ingredient") && IsJoinName("author");
    var one := ReadJoins(map["join" := ["ingredient"]], None);
    assert one.Ok? && one.value.Some?;
    assert forall n :: n in one.value.value <==> n == "ingredient";
    var two := ReadJoins(map["join" := ["author", "ingredient"]], None);
    assert two.Ok? && two.value.Some?;
    assert forall n :: n in two.value.value <==> n == "author" || n == "ingredient";
    assert two.value.value == {"author", "ingredient"};
  }

  /** Duplicates count against the maximum although they collapse in the set. */
  lemma DuplicateJoinsCount()
    ensures ReadJoins(map["join" := ["a", "a"]], Some(ListOptions("", 1))) == Err(TooManyJoins)
    ensures ReadJoins(map["join" := ["a", "a"]], None) == Ok(Some({"a"}))
  {
    assert IsJoinName("a");
    var r := ReadJoins(map["join" := ["a", "a"]], None);
    assert r.Ok? && r.value.Some?;
    assert forall n :: n in r.value.value <==> n == "a";
  }

  /** The page as assembled from results the parsers are known to give. */
  lemma PageOf(values: Values, p: Pagination, filters: Option<seq<Filter>>, sorts: Option<seq<Sort>>)
    requires ReadPagination(values, None) == Ok(p)
    requires ReadFilters(values, None) == Ok(filters)
    requires ReadSorts(values, None) == Ok(sorts)
    requires "join" !in values
    ensures ReadPage(values, None) == Ok(Page(p, filters, sorts, None))
  {
  }

  lemma EmptyPage()
    ensures ReadPage(map[], None) == Ok(Page(Pagination(0, 0, 0), None, None, None))
  {
    PaginationCases();
  }

  lemma Numerals()
    ensures Atoi("10") == Some(10) && Atoi("2") == Some(2)
  {
    assert "1"[..0] == [] && "2"[..0] == [] && "10"[..1] == "1";
    assert DigitsValue("1") == 1 && DigitsValue("2") == 2;
    assert DigitsValue("10") == 10;
  }

  /** Limit and page given, offset not: the offset is derived from the page. */
  lemma ReadsLimitAndPage(values: Values, limit: nat, page: int)
    requires "limit" in values && |values["limit"]| > 0 && Atoi(values["limit"][0]) == Some(limit)
    requires "page" in values && |values["page"]| > 0 && Atoi(values["page"][0]) == Some(page)
    requires "offset" !in values
    ensures ReadPagination(values, None) == Ok(Pagination(limit, (page - 1) * limit, page))
  {
  }

  lemma PageWithPagination()
    ensures ReadPage(map["limit" := ["10"], "page" := ["2"]], None)
         == Ok(Page(Pagination(10, 10, 2), None, None, None))
  {
    Numerals();
    ReadsPage(map["limit" := ["10"], "page" := ["2"]], 10, 2, None, None);
  }

  lemma TitleEqSpaghetti()
    ensures var f := Filter("title", "eq", "Spaghetti");
      Filters.IsWellFormed(f) && Filters.Format(f) == "title eq Spaghetti"
  {
    var f := Filter("title", "eq", "Spaghetti");
    assert Filters.Format(f) == "title" + " " + ("eq" + " " + "Spaghetti") == "title eq Spaghetti";
  }

  lemma ServesDesc()
    ensures var s := Sort("serves", "desc");
      Sorts.IsWellFormed(s) && Sorts.Format(s) == "serves desc"
  {
    var s := Sort("serves", "desc");
    assert Sorts.Format(s) == "serves" + " " + "desc" == "serves desc";
  }

  /** A query with limit, page, filter and sort values that are the texts of
      well-formed conditions and orderings, and no offset or join. */
  lemma ReadsPage(values: Values, limit: nat, page: int, filters: Option<seq<Filter>>, sorts: Option<seq<Sort>>)
    requires "limit" in values && |values["limit"]| > 0 && Atoi(values["limit"][0]) == Some(limit)
    requires "page" in values && |values["page"]| > 0 && Atoi(values["page"][0]) == Some(page)
    requires "offset" !in values && "join" !in values
    requires filters.None? <==> "filter" !in values
    requires filters.Some? ==>
      (|values["filter"]| == |filters.value| &&
       forall i :: 0 <= i < |filters.value| ==>
         Filters.IsWellFormed(filters.value[i]) && Filters.Format(filters.value[i]) == values["filter"][i])
    requires sorts.None? <==> "sort" !in values
    requires sorts.Some? ==>
      (|values["sort"]| == |sorts.value| &&
       forall i :: 0 <= i < |sorts.value| ==>
         Sorts.IsWellFormed(sorts.value[i]) && Sorts.Format(sorts.value[i]) == values["sort"][i])
    ensures ReadPage(values, None) == Ok(Page(Pagination(limit, (page - 1) * limit, page), filters, sorts, None))
  {
    ReadsLimitAndPage(values, limit, page);
    if filters.Some? {
      ReadsFilters(values, values["filter"], filters.value);
    }
    if sorts.Some? {
      ReadsSorts(values, values["sort"], sorts.value);
    }
    PageOf(values, Pagination(limit, (page - 1) * limit, page), filters, sorts);
  }

  lemma PageWithFilter()
    ensures ReadPage(map["limit" := ["10"], "page" := ["2"], "filter" := ["title eq Spaghetti"]], None)
         == Ok(Page(Pagination(10, 10, 2), Some([Filter("title", "eq", "Spaghetti")]), None, None))
  {
    TitleEqSpaghetti();
    Numerals();
    ReadsPage(map["limit" := ["10"], "page" := ["2"], "filter" := ["title eq Spaghetti"]], 10, 2,
              Some([Filter("title", "eq", "Spaghetti")]), None);
  }

  /** The example of the page tests: one filter and one sort on page 2 of size 10. */
  lemma PageWithFilterAndSort()
    ensures ReadPage(map["limit" := ["10"], "page" := ["2"], "filter" := ["title eq Spaghetti"], "sort" := ["serves desc"]], None)
         == Ok(Page(Pagination(10, 10, 2), Some([Filter("title", "eq", "Spaghetti")]), Some([Sort("serves", "desc")]), None))
  {
    TitleEqSpaghetti();
    ServesDesc();
    Numerals();
    ReadsPage(map["limit" := ["10"], "page" := ["2"], "filter" := ["title eq Spaghetti"], "sort" := ["serves desc"]], 10, 2,
              Some([Filter("title", "eq", "Spaghetti")]), Some([Sort("serves", "desc")]));
  }
}

=== FILE: sort.dfy ===
/** `ReadSorts`: orderings of the form `<field> (asc|desc)`. */
module Sorts {
  import opened Wrappers
  import opened QueryValues
  import opened Lexical
  import Lists
  import Options

  datatype Sort = Sort(field: string, direction: string)

  const Directions: set<string> := {"asc", "desc"}

  predicate IsWellFormed(s: Sort) {
    IsField(s.field) && s.direction in Directions
  }

  /** The query-string text of an ordering. */
  function Format(s: Sort): string {
    s.field + " " + s.direction
  }

  function FieldOf(s: Sort): string {
    s.field
  }

  /** The sort pattern: a field, one space, and exactly "asc" or "desc" to the end. */
  function Parse(s: string): (r: Option<Sort>)
    ensures r.Some? ==> IsWellFormed(r.value) && Format(r.value) == s
  {
    match SplitField(s)
    case None => None
    case Some((field, direction)) =>
      if direction in Directions then Some(Sort(field, direction)) else None
  }

  /** Every well-formed ordering parses back from its text. */
  lemma ParseFormat(s: Sort)
    requires IsWellFormed(s)
    ensures Parse(Format(s)) == Some(s)
  {
    SplitFieldOf(s.field, s.direction);
  }

  /** A string parses to `s` exactly when it is the text of the well-formed `s`. */
  lemma ParseIff(text: string, s: Sort)
    ensures Parse(text) == Some(s) <==> IsWellFormed(s) && Format(s) == text
  {
    if IsWellFormed(s) && Format(s) == text {
      ParseFormat(s);
    }
  }

  /** `Sorts.Field`: the orderings on `name`, in their original order. */
  function Field(sorts: seq<Sort>, name: string): (r: seq<Sort>)
    ensures forall s :: s in r ==> s.field == name
    ensures Lists.IsSubsequence(r, sorts)
    ensures forall s :: s in sorts && s.field == name ==> s in r
    ensures forall s :: multiset(r)[s] == if s.field == name then multiset(sorts)[s] else 0
  {
    var r := Lists.Matching(sorts, FieldOf, name);
    forall s
      ensures multiset(r)[s] == if s.field == name then multiset(sorts)[s] else 0
    {
      Lists.MatchingCount(sorts, FieldOf, name, s);
    }
    r
  }

  /** `Sorts.Fields`: each ordering once per occurrence of its field among `names`. */
  function Fields(sorts: seq<Sort>, names: seq<string>): (r: seq<Sort>)
    ensures forall s :: s in r ==> s in sorts && s.field in names
    ensures forall s :: s in sorts && s.field in names ==> s in r
    ensures |names| == 0 ==> r == []
  {
    var r := Lists.MatchingAny(sorts, FieldOf, names);
    forall s | s in sorts && s.field in names
      ensures s in r
    {
      Lists.MatchingAnyKeeps(sorts, FieldOf, names, s);
    }
    r
  }

  /** The multiplicity `Fields` promises: once per occurrence of the field among `names`,
      for each time the element occurs. */
  lemma FieldsCount(sorts: seq<Sort>, names: seq<string>, s: Sort)
    ensures multiset(Fields(sorts, names))[s] == multiset(sorts)[s] * multiset(names)[s.field]
  {
    Lists.MatchingAnyCount(sorts, FieldOf, names, s);
  }

  /** Selecting by several names keeps the original order: it distributes over concatenation. */
  lemma FieldsAppend(a: seq<Sort>, b: seq<Sort>, names: seq<string>)
    ensures Fields(a + b, names) == Fields(a, names) + Fields(b, names)
  {
    Lists.MatchingAnyAppend(a, b, FieldOf, names);
  }

  /** `Sorts.HasField`. */
  function HasField(sorts: seq<Sort>, name: string): (b: bool)
    ensures b <==> exists i :: 0 <= i < |sorts| && sorts[i].field == name
    ensures b <==> |Field(sorts, name)| > 0
  {
    Lists.ExistsIffMatching(sorts, FieldOf, name);
    Lists.Exists(sorts, FieldOf, name)
  }

  /** `initSortsOptions`. */
  function InitOptions(opt: Option<Options.ListOptions>): (r: Options.ListOptions)
    ensures Options.IsNormalized(r)
    ensures opt.None? ==> r == Options.ListOptions("sort", 0)
    ensures opt.Some? && Options.IsNormalized(opt.value) ==> r == opt.value
  {
    Options.Init(opt, "sort")
  }

  /** `ReadSorts`. An absent key is `None`, which is not the same as `Some([])`. */
  function ReadSorts(values: Values, opt: Option<Options.ListOptions>): (r: Result<Option<seq<Sort>>, Error>)
    ensures var o := InitOptions(opt);
      o.key !in values <==> r == Ok(None)
    ensures var o := InitOptions(opt);
      r == Err(TooManySorts) <==> o.key in values && Options.TooMany(o, |values[o.key]|)
    ensures var o := InitOptions(opt);
      r == Err(InvalidSort) <==>
        o.key in values && !Options.TooMany(o, |values[o.key]|)
        && exists i :: 0 <= i < |values[o.key]| && Parse(values[o.key][i]).None?
    ensures r.Err? ==> r.error in {TooManySorts, InvalidSort}
    ensures var o := InitOptions(opt);
      r.Ok? && r.value.Some? ==>
        o.key in values && |r.value.value| == |values[o.key]|
        && forall i :: 0 <= i < |values[o.key]| ==>
             IsWellFormed(r.value.value[i]) && Format(r.value.value[i]) == values[o.key][i]
  {
    var o := InitOptions(opt);
    if o.key !in values then Ok(None)
    else if Options.TooMany(o, |values[o.key]|) then Err(TooManySorts)
    else
      match Lists.ParseEach(values[o.key], Parse)
      case None => Err(InvalidSort)
      case Some(sorts) => Ok(Some(sorts))
  }

  /** A present key with no values is an empty list, not an absent one. */
  lemma PresentButEmpty(values: Values, opt: Option<Options.ListOptions>)
    requires InitOptions(opt).key in values && values[InitOptions(opt).key] == []
    ensures ReadSorts(values, opt) == Ok(Some([]))
  {
  }

  /** The result depends on the options only through their initialised form. */
  lemma ReadSortsSameOptions(values: Values, a: Option<Options.ListOptions>, b: Option<Options.ListOptions>)
    requires InitOptions(a) == InitOptions(b)
    ensures ReadSorts(values, a) == ReadSorts(values, b)
  {
  }
}

=== FILE: values.dfy ===
/** The decoded query string and the errors the parsers report. */
module QueryValues {

  /** Decoded query parameters: each key maps to its values in the order given. */
  type Values = map<string, seq<string>>

  /** The first value stored under `key`, or "" when the key is absent
      or holds no value (Go's `url.Values.Get`). */
  function Get(values: Values, key: string): string
  {
    if key in values && |values[key]| > 0 then values[key][0] else ""
  }

  /** One error per violated contract; every error aborts the whole call. */
  datatype Error =
    | InvalidLimit | InvalidOffset | InvalidPage
    | InvalidFilter | TooManyFilters
    | InvalidSort | TooManySorts
    | InvalidJoin | TooManyJoins
}

=== FILE: wrappers.dfy ===
/** Optional values and fallible results, usable with the `:-` operator. */
module Wrappers {

  /** A value that may be absent; Go's nil slice or nil map is `None`. */
  datatype Option<+T> = None | Some(value: T)

  /** Either a value or an error, like Go's `(T, error)` pair. */
  datatype Result<+T, +E> = Ok(value: T) | Err(error: E) {

    predicate IsFailure() {
      Err?
    }

    function PropagateFailure<U>(): Result<U, E>
      requires Err?
    {
      Err(error)
    }

    function Extract(): T
      requires Ok?
    {
      value
    }
  }
}
